=== FILE: README.md ===
# Shallow resolution engine of react-shallow-renderer, in Dafny

This project models the resolution engine of `react-shallow-renderer`. The
engine takes the root element of a UI tree and runs component code once, at
the root. It then walks the output without executing anything else and
returns a serialisable snapshot. In that snapshot every element's `type` is a
string label, portals are turned into plain elements, and bare functions
become `"[Function: name]"` placeholders.

The model has seven modules:

- `Values`: the JavaScript values the engine sees. These are children
  (`Value`), element types (`TypeValue`), objects (`Node`: element, portal,
  `Error` instance or plain object) and errors. Symbol markers become constructors.
- `Guards`: the classifier of `src/guards.ts`, one predicate per guard. It
  also has a reference classification `Classify`, defined by a single pattern
  match, and proofs that at most one guard holds. So the order in which the
  resolvers try the guards does not change the result.
- `Names`: `resolveChildName` and `resolveFunctionName`, the display-name
  resolver.
- `Normalizer`: `resolveChildren`, `resolveNestedChildren` and
  `resolveChild`. These functions take no component environment as a
  parameter, so they cannot run component code.
- `Renderer`: `internalToJSON` and the renderer object. Component code is a
  parameter `run: Invocation -> RenderOutcome`. It answers a function call, a
  class construction plus `render()`, or a forwardRef render call with the
  rendered value or with the exception thrown.
- `Diagnostics`: `constructInvalidNodeMessage` and `invalidNodeToString`. The
  host JSON serializer's outcome is a parameter.
- `Scenarios`: concrete resolutions, most of them taken from the repository's tests.

The model follows the code on three points where its behaviour is easy to misread:

- The wrapper labels are `React.memo(...)`, `React.forwardRef(...)`,
  `React.Fragment`, `React.Provider`, `React.Consumer` and `ReactDOM.Portal`.
- An element whose `type` is `null` does not raise the invalid-node error.
  `typeof null === 'object'`, so the memo guard evaluates `'$$typeof' in null`,
  and that raises a TypeError. Both dispatchers reach that guard before any
  guard that holds. The model raises `NullTypeProbe` there.
- A forwardRef label uses `displayName || resolveFunctionName(render)`. So the
  render function's own `displayName` and the `'Unknown'` fallback also apply.

## Model

| member | source | states |
|---|---|---|
| Guards.ClassifyMatchesGuards | src/guards.ts:27-91 | A guard of the source holds for a node exactly when the single-match classification names that guard's kind. |
| Guards.GuardsExclusive | src/guards.ts:27-91 | No node satisfies two different guards. |
| Guards.PortalAndPlainGuards | src/guards.ts:89-91 | A portal satisfies only isPortal. An object that is neither element nor portal, such as `{}` or an `Error` instance, satisfies no guard. |
| Guards.ClassXorFunction | src/guards.ts:35-51 | For an element whose type is a function, exactly one of isClass and isFunction holds. |
| Guards.PrototypeRenderIsClass | src/guards.ts:39-41 | A function type whose prototype has `render` is classified as a class component. |
| Guards.HostIffStringType | src/guards.ts:31-33 | isHTML holds exactly for elements whose type is a string. |
| Guards.ProbeThrowsOnlyWhenUnclassified | src/guards.ts:53-60 | An element with a null type, where the `in` probe raises, is recognised by no guard. |
| Guards.OrderIrrelevant | src/renderer.ts:37-107 | Trying the guards in any order that covers all kinds picks the same kind as the reference classification. |
| Guards.SourceOrdersAgree | src/renderer.ts:185-226 | The guard orders of internalToJSON and resolveChildName pick the same kind on every node. |
| Diagnostics.NatToString | src/renderer.ts:245-251 | A number renders as a non-empty string of decimal digits with no leading zero. |
| Diagnostics.IntToString | src/renderer.ts:245-251 | A rendered integer starts with '-' exactly when it is negative, and otherwise is all digits. |
| Diagnostics.NatRoundTrip | src/renderer.ts:245-251 | Reading back the rendering of a natural number gives that number. |
| Diagnostics.IntRoundTrip | src/renderer.ts:245-251 | An integer's rendering is a signed decimal, and reading it back gives the integer. |
| Diagnostics.IntToStringInjective | src/renderer.ts:245-251 | Different integers render differently. |
| Diagnostics.InvalidNodeToString | src/renderer.ts:240-268 | The rendering of an offending value, in the source's order: strings quoted, numbers, `undefined` and `null` literally, `Error` instances as name and quoted message, anything else through the serializer. It has no contract of its own; Diagnostics.MessageDeterminedByCulprit, Diagnostics.StringRenderedQuoted, Diagnostics.SelfRenderedInjective and Diagnostics.SerializerRendering pin it, between them for every value. |
| Diagnostics.ConstructInvalidNodeMessage | src/renderer.ts:234-238 | Every invalid-node message starts with `Invalid or unsupported React element / child: `. |
| Diagnostics.ErrorMessage | src/renderer.ts:107 | The message of an invalid-node error raised by the engine starts with that prefix. |
| Diagnostics.MessageDeterminedByCulprit | src/renderer.ts:240-256 | When the culprit is a string, number, `null`, `undefined` or an `Error` instance, the message does not depend on the serializer. An `Error` instance shows as its name, a colon and its quoted message. |
| Diagnostics.SerializerRendering | src/renderer.ts:253-267 | Every value the engine does not render itself (arrays, booleans, functions, elements, portals and objects other than `Error` instances) is rendered by the serializer: its text, `undefined` when it returns nothing, or the type tag and the error when it throws. |
| Diagnostics.StringRenderedQuoted | src/renderer.ts:241-243 | A string is rendered as itself between double quotes. |
| Diagnostics.SelfRenderedInjective | src/renderer.ts:240-251 | Strings, numbers, `null` and `undefined` render without the serializer. Two such values with the same rendering are equal, whatever the serializer does. |
| Names.ResolveFunctionName | src/renderer.ts:228-232 | A component name is never empty. It is the displayName, the function name or `Unknown`. |
| Names.ResolveChildName | src/renderer.ts:185-226 | Only elements and portals get a label. A failure is the invalid-node error or the null-type TypeError, never a user exception. The node it carries is the node itself; only behind memo can it be the same element with its type replaced by an inner type. |
| Names.NameDispatchAgrees | src/renderer.ts:185-226 | The guard chain gives the same label or error as a single match over the reference classification. |
| Names.NameDefinedIff | src/renderer.ts:185-226 | Naming succeeds exactly when the node is classified and, for a memo, its inner type can be named. |
| Names.HostNameIsTag | src/renderer.ts:186-188 | A string-typed node is labelled with its tag. |
| Names.ComponentName | src/renderer.ts:190-192 | A function or class component is labelled with its displayName, else its function name, else `Unknown`, and never with the empty string. |
| Names.ForwardRefName | src/renderer.ts:201-207 | A forwardRef is labelled `React.forwardRef(` + (displayName, else the render function's name) + `)`. |
| Names.FixedLabels | src/renderer.ts:209-223 | Fragment, Provider, Consumer and Portal get their fixed labels. |
| Names.UnrecognisedNameFails | src/renderer.ts:225 | An unrecognised node raises the invalid-node error carrying that node. |
| Names.MemoLabelNests | src/renderer.ts:194-199 | k memo layers wrap the inner label in k nested `React.memo(`…`)`. An inner error is propagated unchanged. |
| Normalizer.ResolveChildren | src/renderer.ts:110-120 | `undefined` gives `[]`. An array gives a list of the same length. Any other value gives a one-item list. |
| Normalizer.ResolveNestedChildren | src/renderer.ts:122-145 | Falsy and primitive values come back unchanged. Arrays stay arrays of the same length. Non-arrays stay non-arrays. |
| Normalizer.ResolveItems | src/renderer.ts:138-144 | Mapping an array keeps its length, and only engine errors can come out. |
| Normalizer.ResolveChild | src/renderer.ts:147-183 | A falsy value comes back unchanged. A non-array child never becomes an array. |
| Normalizer.NestedIsChildOffArrays | src/renderer.ts:122-145 | Off arrays, resolveNestedChildren and resolveChild agree. |
| Normalizer.NestedFacts | src/renderer.ts:122-145 | Normalising succeeds exactly when every object reached is a nameable element or a portal. A success keeps the input's array shape exactly and contains only string-typed elements and no functions. |
| Normalizer.ItemsFacts | src/renderer.ts:138-144 | The array map succeeds exactly when every item can be normalised. Each output item is its input item's resolution, in place. |
| Normalizer.ChildFacts | src/renderer.ts:147-183 | resolveChild succeeds exactly on normalisable values, and its output is fully resolved. |
| Normalizer.ChildrenFacts | src/renderer.ts:110-120 | resolveChildren succeeds exactly on normalisable values, and every item it returns is resolved. |
| Normalizer.ChildrenElementWise | src/renderer.ts:110-120 | An array is mapped element by element. Any other value is wrapped as a single resolved item. |
| Normalizer.FalsyChildrenKept | src/renderer.ts:125-132 | Falsy and primitive items of a children array come out unchanged at the same index. |
| Normalizer.PortalSynthesis | src/renderer.ts:153-165 | A nested portal becomes a `ReactDOM.Portal` element with null key and ref, cleared bookkeeping, and normalised children. |
| Normalizer.ElementCopy | src/renderer.ts:167-175 | A nested element keeps its key, ref, bookkeeping and other props. Only its type, which becomes its label, and its children change. |
| Normalizer.FunctionPlaceholder | src/renderer.ts:178-180 | A bare function becomes the string `[Function: name]`. |
| Normalizer.ItemsPointwiseIff | src/renderer.ts:138-144 | The array map yields a list exactly when each item resolves to the matching entry. |
| Renderer.InternalToJson | src/renderer.ts:36-108 | internalToJSON, with the guards tried in the source's order. It has no contract of its own; the Renderer rows below pin it: Renderer.RootRunsInvocation and Renderer.UserErrorsPropagate for invoking roots, Renderer.HostRoot, Renderer.WrapperRoot, Renderer.MemoTransparent and Renderer.InvalidRoot for the others, Renderer.OutputResolved for every success. |
| Renderer.ShallowRenderer.ToJson | src/renderer.ts:32-34 | toJSON resolves the held root afresh on every call. It has no contract of its own; it is Renderer.InternalToJson applied to the root. |
| Renderer.RootRunsInvocation | src/renderer.ts:47-101 | A root that leads to an invocation, possibly behind memo layers, resolves to the normalised outcome of exactly that invocation. |
| Renderer.NoInvocationNoExecution | src/renderer.ts:37-105 | Host, Fragment, Provider, Consumer, Portal and unrecognised roots resolve the same under any component code, and never report a user exception. |
| Renderer.ExecutesAtMostOnce | src/renderer.ts:36-108 | Two component environments that agree on the root's single invocation give the same result. |
| Renderer.UserErrorsPropagate | src/renderer.ts:47-101 | The result is a user exception exactly when the root's invocation threw it. |
| Renderer.CollapseSingleValue | src/renderer.ts:49-57 | Non-array output is returned bare, as its own resolution. |
| Renderer.CollapseSingleItem | src/renderer.ts:49-57 | A one-item array output is returned bare, as the resolution of its item. |
| Renderer.CollapseList | src/renderer.ts:49-57 | Array output of any other length gives a list of the same length, each entry the resolution of the matching item. |
| Renderer.SingletonCollapse | src/renderer.ts:47-100 | A Function, Class or ForwardRef root, memo-wrapped or not, returns the bare resolved child for a single output item, and otherwise a list of equal length resolved item by item. |
| Renderer.HostRoot | src/renderer.ts:37-45 | A Host root comes back with only `props.children` replaced by its normalisation. |
| Renderer.WrapperRoot | src/renderer.ts:80-85 | A Fragment, Provider or Consumer root executes nothing. It becomes a string-typed element with its fixed label and normalised children, keeping key, ref and other props. |
| Renderer.MemoTransparent | src/renderer.ts:73-78 | Any number of memo layers around a root leave its result unchanged. |
| Renderer.InvalidRoot | src/renderer.ts:107 | An unrecognised root raises the invalid-node error carrying that root. |
| Renderer.OutputResolved | src/renderer.ts:36-108 | Every successful result is fully resolved: string-typed elements with list children, no functions, no portals. |
| Scenarios.SimpleHtml | tests/to-json/basic.tsx:25-58 | `<div><p>I am a child!</p>I am text!</div>` resolves to the same tree, with each element's children as a list. |
| Scenarios.FalsyChildren | tests/to-json/basic.tsx:60-99 | A function component rendering `<p>{null}</p><p>{false}</p>` gives children `[null]` and `[false]`. |
| Scenarios.MappedChildren | tests/to-json/basic.tsx:15-22 | A function component rendering a `div` with three mapped, keyed `p`s and a doubly nested `div` returns that `div` bare. Both groups of children keep their nesting, keys and numeric values, as the expected tree at tests/to-json/basic.tsx lines 101-168 shows. |
| Scenarios.HostChild | src/renderer.ts:167-175 | A nested Host element keeps every field but its children, which are normalised; a failure of the children is the element's failure. |
| Scenarios.PortalRoot | src/renderer.ts:103-105 | A portal root with one Host child gives a `ReactDOM.Portal` element with that child normalised. |
| Scenarios.EmptyObjectIsInvalid | tests/internal-methods.tsx:6-13 | `{}` raises the invalid-node error at the root and in resolveChildName. The error message carries the prefix. |
| Scenarios.LiteralRenderings | tests/internal-methods.tsx:63-65 | `'string'`, `null` and `undefined` render as `"string"`, `null` and `undefined`. |
| Scenarios.ErrorRendering | tests/internal-methods.tsx:71-73 | `new Error('error')` renders as `Error: "error"`. |
| Scenarios.ErrorChild | src/renderer.ts:166-175 | `<div>{new Error('x')}</div>` raises the invalid-node error carrying the `Error` instance. Its message is the prefix followed by `Error: "x"`, whatever the serializer does. |
| Scenarios.NumberRendering | tests/internal-methods.tsx:66 | `123` renders as `123`. |

## Left out

- Calls into component code (`node.type(props)`, `new node.type(props).render()`, `type.render(props, ref)`): these are foreign code. They are the `run` parameter, and an exception they throw is `Threw`, which propagates as `UserThrew`.
- How class shape is detected (`instanceof React.Component`, the prototype `render` probe and the `MATCHES_CLASS` pattern over the source text): this needs the host runtime. Each function carries the prototype probe's outcome and a combined outcome of the other two probes.
- `JSON.stringify` and `Object.prototype.toString` in invalidNodeToString: they belong to the host runtime. Their outcome is the `Stringify` parameter (text, `undefined`, or an exception with the object's type tag).
- The text of the TypeError that `'$$typeof' in null` raises: it comes from the host runtime. The model only records that this error is raised.
- Symbol identity and the constants module (`src/constants.ts` is not part of this model): the markers are constructors of `Sym`.
- Object spread of arbitrary fields: `_owner`, `_store`, extra own fields and props other than `children` are an opaque `Payload`, copied verbatim.
- JavaScript numbers are modelled as integers. NaN, `-0`, fractions and the exponent notation of very large magnitudes are not modelled, so `Falsy` only treats `0` as a falsy number.
- Symbol and bigint children, which the source passes through unchanged, are not values of the model.
- An element-marked object without `props`, or a forwardRef object without `render`, would raise a TypeError in the source. In the model every element has props and every object type has a render function.
- Non-string `displayName` or `name` properties: the model has strings only, with the empty string standing for a falsy property.
- Determinism and the absence of caching across `toJSON` calls hold by construction: every member is a pure function.
- The test harness (the `compare` helper and jest mocks) and the serializer-failure test for self-referencing objects.

=== FILE: diagnostics.dfy ===
/**
 Diagnostics: the rendering of an offending value inside the invalid-node
 error message. Strings, numbers, `null`, `undefined` and error objects are
 rendered by the engine itself; every other value goes through the host's JSON
 serializer, whose outcome is a parameter here.
 */
module Diagnostics {
  import opened Values

  const InvalidNodePrefix: string := "Invalid or unsupported React element / child: "

  /**
   What the JSON serializer did with an object: produced text, returned
   `undefined` (a value it cannot serialize), or threw (a self-referential
   structure), in which case the object's type tag and the thrown error's text
   are reported.
   */
  datatype Stringify =
    | Stringified(text: string)
    | NotSerializable
    | StringifyThrew(typeTag: string, error: string)

  function Digit(d: nat): (c: char)
    requires d < 10
    ensures '0' <= c <= '9'
  {
    "0123456789"[d]
  }

  predicate AllDigits(s: string) {
    forall i :: 0 <= i < |s| ==> '0' <= s[i] <= '9'
  }

  /** Decimal rendering of a natural number, as a template literal prints it. */
  function NatToString(n: nat): (r: string)
    ensures |r| >= 1 && AllDigits(r)
    ensures r[0] == '0' ==> n == 0
  {
    if n < 10 then [Digit(n)] else NatToString(n / 10) + [Digit(n % 10)]
  }

  /** Decimal rendering of an integer, with a leading '-' for negatives. */
  function IntToString(i: int): (r: string)
    ensures |r| >= 1
    ensures r[0] == '-' <==> i < 0
    ensures i >= 0 ==> AllDigits(r)
  {
    if i < 0 then "-" + NatToString(-i) else NatToString(i)
  }

  /** The partner of NatToString: reading a string of decimal digits back. */
  function ParseNat(s: string): nat
    requires AllDigits(s)
  {
    if |s| == 0 then 0 else 10 * ParseNat(s[..|s| - 1]) + (s[|s| - 1] - '0') as nat
  }

  lemma {:induction false} NatRoundTrip(n: nat)
    ensures ParseNat(NatToString(n)) == n
  {
    var s := NatToString(n);
    if n >= 10 {
      NatRoundTrip(n / 10);
      assert s[..|s| - 1] == NatToString(n / 10);
      assert s[|s| - 1] == Digit(n % 10);
    } else {
      assert s == [Digit(n)];
    }
  }

  lemma NegativeDigits(i: int)
    requires i < 0
    ensures IntToString(i)[1..] == NatToString(-i)
  {
    assert IntToString(i) == "-" + NatToString(-i);
  }

  /** Text of the shape IntToString produces: digits, optionally after a '-'. */
  predicate IsIntText(s: string) {
    |s| >= 1 && (if s[0] == '-' then AllDigits(s[1..]) else AllDigits(s))
  }

  /** The partner of IntToString: reading a signed decimal back. */
  function ParseInt(s: string): int
    requires IsIntText(s)
  {
    if s[0] == '-' then -(ParseNat(s[1..]) as int) else ParseNat(s)
  }

  lemma IntRoundTrip(i: int)
    ensures IsIntText(IntToString(i))
    ensures ParseInt(IntToString(i)) == i
  {
    var t := IntToString(i);
    if i < 0 {
      var d := NatToString(-i);
      NegativeDigits(i);
      assert t[1..] == d;
      assert AllDigits(t[1..]);
      NatRoundTrip(-i);
      assert ParseInt(t) == -(ParseNat(d) as int);
    } else {
      assert t == NatToString(i);
      assert t[0] != '-';
      NatRoundTrip(i);
    }
  }

  /** Distinct numbers render differently. */
  lemma IntToStringInjective(i: int, j: int)
    requires IntToString(i) == IntToString(j)
    ensures i == j
  {
    IntRoundTrip(i);
    IntRoundTrip(j);
  }

  /** A number's rendering starts with '-' or a digit. */
  lemma NumberRenderingStart(i: int)
    ensures var s := IntToString(i); s[0] == '-' || '0' <= s[0] <= '9'
  {
  }

  function Quote(s: string): string {
    "\"" + s + "\""
  }

  /**
   The source's invalidNodeToString, with the serializer's outcome as a
   parameter: only objects that are not `Error` instances reach the serializer.
   */
  function InvalidNodeToString(v: Value, json: Stringify): string {
    match v
    case Str(s) => Quote(s)
    case Num(n) => IntToString(n)
    case Undefined => "undefined"
    case Null => "null"
    case Obj(ErrorObject(name, message)) => name + ": " + Quote(message)
    case _ =>
      match json
      case Stringified(text) => text
      case NotSerializable => "undefined"
      case StringifyThrew(tag, error) => tag + "\nCould not stringify: " + error
  }

  function ConstructInvalidNodeMessage(v: Value, json: Stringify): (r: string)
    ensures |r| >= |InvalidNodePrefix| && r[..|InvalidNodePrefix|] == InvalidNodePrefix
  {
    InvalidNodePrefix + InvalidNodeToString(v, json)
  }

  /** The message of an invalid-node error raised by the engine. */
  function ErrorMessage(e: Error, json: Stringify): (r: string)
    requires e.InvalidNode?
    ensures |r| >= |InvalidNodePrefix| && r[..|InvalidNodePrefix|] == InvalidNodePrefix
  {
    ConstructInvalidNodeMessage(e.culprit, json)
  }

  /** Values whose rendering the serializer's outcome cannot affect. */
  predicate SerializerFree(v: Value) {
    SelfRendered(v) || (v.Obj? && v.node.ErrorObject?)
  }

  /**
   The message of an invalid-node error is fixed by its culprit alone unless
   the culprit goes through the serializer; an `Error` instance shows its name
   and quoted message.
   */
  lemma MessageDeterminedByCulprit(e: Error, json1: Stringify, json2: Stringify)
    requires e.InvalidNode? && SerializerFree(e.culprit)
    ensures ErrorMessage(e, json1) == ErrorMessage(e, json2)
    ensures e.culprit.Obj? ==>
      ErrorMessage(e, json1) == InvalidNodePrefix + e.culprit.node.name + ": " + Quote(e.culprit.node.message)
  {
  }

  /**
   Every value the engine does not render itself (arrays, booleans, functions,
   elements, portals and objects other than `Error` instances) is rendered by
   the serializer, whatever it answers.
   */
  lemma SerializerRendering(v: Value, json: Stringify)
    requires !SerializerFree(v)
    ensures InvalidNodeToString(v, json) ==
      match json
      case Stringified(text) => text
      case NotSerializable => "undefined"
      case StringifyThrew(tag, error) => tag + "\nCould not stringify: " + error
  {
  }

  /** Values rendered by the engine itself, without the serializer. */
  predicate SelfRendered(v: Value) {
    v.Str? || v.Num? || v == Undefined || v == Null
  }

  /** The rendering of a string is the string between double quotes. */
  lemma StringRenderedQuoted(s: string, json: Stringify)
    ensures var r := InvalidNodeToString(Str(s), json);
      |r| == |s| + 2 && r[0] == '"' && r[|r| - 1] == '"' && r[1..|r| - 1] == s
  {
  }

  /**
   Two self-rendered values with the same rendering are equal: a string never
   reads as a number, `null` or `undefined`, and numbers render injectively.
   The serializer's outcome plays no part.
   */
  lemma SelfRenderedInjective(v: Value, w: Value, json1: Stringify, json2: Stringify)
    requires SelfRendered(v) && SelfRendered(w)
    requires InvalidNodeToString(v, json1) == InvalidNodeToString(w, json2)
    ensures v == w
  {
    var r := InvalidNodeToString(v, json1);
    if v.Num? && w.Num? {
      IntToStringInjective(v.n, w.n);
    } else if v.Str? && w.Str? {
      assert v.s == r[1..|r| - 1] == w.s;
    } else if v.Num? {
      NumberRenderingStart(v.n);
      LiteralRenderingStart(w, json2);
    } else if w.Num? {
      NumberRenderingStart(w.n);
      LiteralRenderingStart(v, json1);
    }
  }

  /** Strings, `null` and `undefined` render starting with '"', 'n' or 'u', never like a number. */
  lemma LiteralRenderingStart(v: Value, json: Stringify)
    ensures v.Str? || v == Undefined || v == Null ==>
      var s := InvalidNodeToString(v, json); |s| > 0 && (s[0] == '"' || s[0] == 'n' || s[0] == 'u')
  {
  }
}

=== FILE: guards.dfy ===
/**
 The node classifier: one predicate per guard of the source, a reference
 classification `Classify` that names the single variant of a node, and the
 facts that make the dispatch order of the resolvers irrelevant.
 */
module Guards {
  import opened Values

  predicate IsFragment(n: Node) {
    n.Element? && n.elementType == TSymbol(FragmentSym)
  }

  predicate IsHTML(n: Node) {
    n.Element? && n.elementType.TString?
  }

  /** The outcome of the three class probes: `instanceof`, prototype `render`, source pattern. */
  predicate ClassShaped(f: Callable) {
    f.classEvidence || f.protoHasRender
  }

  predicate IsClass(n: Node) {
    n.Element? && n.elementType.TFunction? && ClassShaped(n.elementType.fn)
  }

  predicate IsFunction(n: Node) {
    n.Element? && n.elementType.TFunction? && !IsClass(n)
  }

  /** An element whose type is an object carrying the `$$typeof` marker `s`. */
  predicate HasTypeMarker(n: Node, s: Sym) {
    n.Element? && n.elementType.TObject? && n.elementType.marker == Some(s)
  }

  predicate IsMemo(n: Node) {
    HasTypeMarker(n, MemoSym)
  }

  predicate IsProvider(n: Node) {
    HasTypeMarker(n, ProviderSym)
  }

  predicate IsConsumer(n: Node) {
    HasTypeMarker(n, ContextSym)
  }

  predicate IsForwardRef(n: Node) {
    HasTypeMarker(n, ForwardRefSym)
  }

  predicate IsPortal(n: Node) {
    n.Portal?
  }

  predicate IsArrayOfChildren(v: Value) {
    v.Arr?
  }

  /**
   The object-type guards evaluate `'$$typeof' in node.type` after checking
   `typeof node.type === 'object'`, which also holds for null: on an element
   whose type is null that operator raises a TypeError instead of answering.
   */
  predicate ProbeThrows(n: Node) {
    n.Element? && n.elementType.TNull?
  }

  datatype Kind =
    | KHost
    | KFunction
    | KClass
    | KMemo
    | KProvider
    | KConsumer
    | KFragment
    | KForwardRef
    | KPortal

  /** The guard of the source that recognises kind `k`. */
  predicate Guard(k: Kind, n: Node) {
    match k
    case KHost => IsHTML(n)
    case KFunction => IsFunction(n)
    case KClass => IsClass(n)
    case KMemo => IsMemo(n)
    case KProvider => IsProvider(n)
    case KConsumer => IsConsumer(n)
    case KFragment => IsFragment(n)
    case KForwardRef => IsForwardRef(n)
    case KPortal => IsPortal(n)
  }

  /** Reference classification by a single pattern match over the node's shape. */
  function Classify(n: Node): Option<Kind> {
    match n
    case ErrorObject(_, _) => None
    case Plain(_) => None
    case Portal(_, _) => Some(KPortal)
    case Element(t, _, _, _, _) =>
      match t
      case TString(_) => Some(KHost)
      case TFunction(f) => if ClassShaped(f) then Some(KClass) else Some(KFunction)
      case TSymbol(s) => if s == FragmentSym then Some(KFragment) else None
      case TObject(m, _, _, _) =>
        if m == Some(MemoSym) then Some(KMemo)
        else if m == Some(ProviderSym) then Some(KProvider)
        else if m == Some(ContextSym) then Some(KConsumer)
        else if m == Some(ForwardRefSym) then Some(KForwardRef)
        else None
      case _ => None
  }

  /** The guards and the reference classification agree, in both directions. */
  lemma ClassifyMatchesGuards(n: Node, k: Kind)
    ensures Classify(n) == Some(k) <==> Guard(k, n)
  {
  }

  /** At most one guard holds for any node. */
  lemma GuardsExclusive(n: Node, k1: Kind, k2: Kind)
    requires Guard(k1, n) && Guard(k2, n)
    ensures k1 == k2
  {
    ClassifyMatchesGuards(n, k1);
    ClassifyMatchesGuards(n, k2);
  }

  /** A portal matches only the portal guard; an `Error` instance or other object with no marker matches none. */
  lemma PortalAndPlainGuards(n: Node, k: Kind)
    ensures n.Portal? ==> (Guard(k, n) <==> k == KPortal)
    ensures n.ErrorObject? || n.Plain? ==> !Guard(k, n)
  {
  }

  /** For an element whose type is a function, exactly one of isClass and isFunction holds. */
  lemma ClassXorFunction(n: Node)
    requires n.Element? && n.elementType.TFunction?
    ensures IsClass(n) != IsFunction(n)
  {
  }

  /** A function type whose prototype has `render` is classified as a class component. */
  lemma PrototypeRenderIsClass(n: Node)
    requires n.Element? && n.elementType.TFunction? && n.elementType.fn.protoHasRender
    ensures Classify(n) == Some(KClass)
  {
  }

  /** isHTML holds exactly for elements whose type is a string. */
  lemma HostIffStringType(n: Node)
    ensures IsHTML(n) <==> Classify(n) == Some(KHost)
    ensures Classify(n) == Some(KHost) <==> n.Element? && n.elementType.TString?
  {
  }

  /** The probe that raises on a null type only concerns nodes no guard recognises. */
  lemma ProbeThrowsOnlyWhenUnclassified(n: Node)
    requires ProbeThrows(n)
    ensures Classify(n) == None
  {
  }

  /** The first kind in `order` whose guard holds. */
  function FirstMatch(n: Node, order: seq<Kind>): Option<Kind> {
    if |order| == 0 then None
    else if Guard(order[0], n) then Some(order[0])
    else FirstMatch(n, order[1..])
  }

  /** The order in which the root resolver tries the guards. */
  const RootOrder: seq<Kind> :=
    [KHost, KFunction, KClass, KMemo, KFragment, KProvider, KConsumer, KForwardRef, KPortal]

  /** The order in which the display-name resolver tries the guards. */
  const NameOrder: seq<Kind> :=
    [KHost, KFunction, KClass, KMemo, KForwardRef, KFragment, KProvider, KConsumer, KPortal]

  lemma {:induction false} FirstMatchFindsClass(n: Node, order: seq<Kind>)
    ensures Classify(n).None? ==> FirstMatch(n, order) == None
    ensures Classify(n).Some? && Classify(n).value in order ==> FirstMatch(n, order) == Classify(n)
  {
    if |order| > 0 {
      ClassifyMatchesGuards(n, order[0]);
      FirstMatchFindsClass(n, order[1..]);
      if Classify(n).Some? && Classify(n).value in order && Classify(n).value != order[0] {
        assert Classify(n).value in order[1..];
      }
    }
  }

  /** Any order that tries every guard picks the same kind: the reference classification. */
  lemma OrderIrrelevant(n: Node, order: seq<Kind>)
    requires forall k: Kind :: k in order
    ensures FirstMatch(n, order) == Classify(n)
  {
    FirstMatchFindsClass(n, order);
  }

  /** The two dispatch orders of the source agree on every node. */
  lemma SourceOrdersAgree(n: Node)
    ensures FirstMatch(n, RootOrder) == FirstMatch(n, NameOrder) == Classify(n)
  {
    forall k: Kind ensures k in RootOrder && k in NameOrder {
      match k
      case KHost =>
      case KFunction =>
      case KClass =>
      case KMemo =>
      case KProvider =>
      case KConsumer =>
      case KFragment =>
      case KForwardRef =>
      case KPortal =>
    }
    OrderIrrelevant(n, RootOrder);
    OrderIrrelevant(n, NameOrder);
  }
}

=== FILE: names.dfy ===
/**
 The display-name resolver: maps a node's type to the string label that
 replaces it in resolved output, or raises the invalid-node error.
 */
module Names {
  import opened Values
  import opened Guards

  const FragmentLabel: string := "React.Fragment"
  const ProviderLabel: string := "React.Provider"
  const ConsumerLabel: string := "React.Consumer"
  const PortalLabel: string := "ReactDOM.Portal"
  const MemoOpen: string := "React.memo("
  const ForwardRefOpen: string := "React.forwardRef("

  /** `displayName || name || 'Unknown'`. */
  function ResolveFunctionName(f: Callable): (r: string)
    ensures r != ""
    ensures r == f.displayName || r == f.name || r == "Unknown"
  {
    if f.displayName != "" then f.displayName
    else if f.name != "" then f.name
    else "Unknown"
  }

  /** The string a forwardRef's inner resolution is performed on: its displayName or its render function's name. */
  function ForwardRefInnerName(t: TypeValue): string
    requires t.TObject?
  {
    if t.displayName != "" then t.displayName else ResolveFunctionName(t.render)
  }

  /** `m` is `n` itself, or the element `n` with only its type replaced. */
  predicate Retyped(m: Node, n: Node) {
    m == n || (n.Element? && m.Element? && m == n.(elementType := m.elementType))
  }

  /**
   resolveChildName: the guards in the source's order. The memo branch recurses
   on the inner type; the forwardRef branch recurses on a string-typed copy of
   the node, which the Host branch answers.
   */
  function ResolveChildName(n: Node): (r: Result<string>)
    decreases NodeDepth(n)
    ensures r.Ok? ==> n.Element? || n.Portal?
    ensures r.Err? ==> r.error == InvalidNode(Obj(n)) || r.error == NullTypeProbe(n) || IsMemo(n)
    ensures r.Err? && r.error.InvalidNode? ==> r.error.culprit.Obj? && Retyped(r.error.culprit.node, n)
    ensures r.Err? && r.error.NullTypeProbe? ==> Retyped(r.error.offender, n)
    ensures r.Err? ==> !r.error.UserThrew?
  {
    if IsHTML(n) then Ok(n.elementType.tag)
    else if IsFunction(n) || IsClass(n) then Ok(ResolveFunctionName(n.elementType.fn))
    else if ProbeThrows(n) then Err(NullTypeProbe(n))
    else if IsMemo(n) then
      var inner :- ResolveChildName(n.(elementType := n.elementType.inner));
      Ok(MemoOpen + inner + ")")
    else if IsForwardRef(n) then
      match ResolveChildName(n.(elementType := TString(ForwardRefInnerName(n.elementType))))
      case Ok(inner) => Ok(ForwardRefOpen + inner + ")")
      case Err(e) => Err(e)
    else if IsFragment(n) then Ok(FragmentLabel)
    else if IsProvider(n) then Ok(ProviderLabel)
    else if IsConsumer(n) then Ok(ConsumerLabel)
    else if IsPortal(n) then Ok(PortalLabel)
    else Err(InvalidNode(Obj(n)))
  }

  /** Nodes the display-name resolver can name: classified, and nameable once memo is unwrapped. */
  predicate Nameable(n: Node)
    decreases NodeDepth(n)
  {
    Classify(n).Some? &&
    (Classify(n) == Some(KMemo) ==> Nameable(n.(elementType := n.elementType.inner)))
  }

  /**
   The label by kind, as a single pattern match over the reference
   classification: the dispatch point a closed tagged union would have.
   */
  function NameByKind(n: Node): Result<string>
    decreases NodeDepth(n)
  {
    if ProbeThrows(n) then Err(NullTypeProbe(n))
    else match Classify(n)
      case None => Err(InvalidNode(Obj(n)))
      case Some(KHost) => Ok(n.elementType.tag)
      case Some(KFunction) => Ok(ResolveFunctionName(n.elementType.fn))
      case Some(KClass) => Ok(ResolveFunctionName(n.elementType.fn))
      case Some(KMemo) =>
        var inner :- NameByKind(n.(elementType := n.elementType.inner));
        Ok(MemoOpen + inner + ")")
      case Some(KForwardRef) => Ok(ForwardRefOpen + ForwardRefInnerName(n.elementType) + ")")
      case Some(KFragment) => Ok(FragmentLabel)
      case Some(KProvider) => Ok(ProviderLabel)
      case Some(KConsumer) => Ok(ConsumerLabel)
      case Some(KPortal) => Ok(PortalLabel)
  }

  /** The source's guard chain and the single-match dispatch give the same label or error. */
  lemma {:induction false} NameDispatchAgrees(n: Node)
    ensures ResolveChildName(n) == NameByKind(n)
    decreases NodeDepth(n)
  {
    if IsMemo(n) {
      NameDispatchAgrees(n.(elementType := n.elementType.inner));
    }
  }

  /** Naming succeeds exactly on nameable nodes. */
  lemma {:induction false} NameDefinedIff(n: Node)
    ensures ResolveChildName(n).Ok? <==> Nameable(n)
    decreases NodeDepth(n)
  {
    if IsMemo(n) {
      NameDefinedIff(n.(elementType := n.elementType.inner));
    }
  }

  /** A string-typed node is named by its tag, whatever its other fields. */
  lemma HostNameIsTag(n: Node)
    requires n.Element? && n.elementType.TString?
    ensures ResolveChildName(n) == Ok(n.elementType.tag)
  {
  }

  /** Function and class components are named `displayName || name || 'Unknown'`, never the empty string. */
  lemma ComponentName(n: Node)
    requires n.Element? && n.elementType.TFunction?
    ensures ResolveChildName(n).Ok?
    ensures var f := n.elementType.fn;
      ResolveChildName(n).value ==
        (if f.displayName != "" then f.displayName else if f.name != "" then f.name else "Unknown")
    ensures ResolveChildName(n).value != ""
  {
  }

  /** A forwardRef is labelled with its displayName, falling back to its render function's name. */
  lemma ForwardRefName(n: Node)
    requires IsForwardRef(n)
    ensures var t := n.elementType;
      ResolveChildName(n) ==
        Ok(ForwardRefOpen + (if t.displayName != "" then t.displayName else ResolveFunctionName(t.render)) + ")")
  {
  }

  /** Fragment, Provider, Consumer and Portal get fixed labels. */
  lemma FixedLabels(n: Node)
    ensures IsFragment(n) ==> ResolveChildName(n) == Ok(FragmentLabel)
    ensures IsProvider(n) ==> ResolveChildName(n) == Ok(ProviderLabel)
    ensures IsConsumer(n) ==> ResolveChildName(n) == Ok(ConsumerLabel)
    ensures IsPortal(n) ==> ResolveChildName(n) == Ok(PortalLabel)
  {
  }

  /** An object that is neither element nor portal, `{}` among them, raises the invalid-node error. */
  lemma UnrecognisedNameFails(n: Node)
    requires Classify(n).None? && !ProbeThrows(n)
    ensures ResolveChildName(n) == Err(InvalidNode(Obj(n)))
  {
  }

  function Repeat(s: string, k: nat): string {
    if k == 0 then [] else s + Repeat(s, k - 1)
  }

  /** Wraps a type in `k` memo layers (displayName and render of the wrappers are irrelevant). */
  function WrapMemo(t: TypeValue, k: nat, dn: string, render: Callable): (w: TypeValue)
    ensures TypeDepth(w) == TypeDepth(t) + k
  {
    if k == 0 then t else TObject(Some(MemoSym), WrapMemo(t, k - 1, dn, render), dn, render)
  }

  /** `k` memo layers around a nameable type produce `k` nested `React.memo(...)` around its label. */
  lemma {:induction false} MemoLabelNests(n: Node, k: nat, dn: string, render: Callable)
    requires n.Element?
    ensures var m := n.(elementType := WrapMemo(n.elementType, k, dn, render));
      match ResolveChildName(n)
      case Ok(s) => ResolveChildName(m) == Ok(Repeat(MemoOpen, k) + s + Repeat(")", k))
      case Err(e) => ResolveChildName(m) == Err(e)
    decreases k
  {
    if k > 0 {
      MemoLabelNests(n, k - 1, dn, render);
      var m := n.(elementType := WrapMemo(n.elementType, k, dn, render));
      var m' := n.(elementType := WrapMemo(n.elementType, k - 1, dn, render));
      assert IsMemo(m);
      assert m.(elementType := m.elementType.inner) == m';
      match ResolveChildName(n)
      case Ok(s) =>
        var inner := Repeat(MemoOpen, k - 1) + s + Repeat(")", k - 1);
        assert ResolveChildName(m') == Ok(inner);
        assert ResolveChildName(m) == Ok(MemoOpen + inner + ")");
        WrapOnce(s, k);
      case Err(e) =>
    } else {
      assert n.(elementType := WrapMemo(n.elementType, 0, dn, render)) == n;
      match ResolveChildName(n)
      case Ok(s) =>
        assert Repeat(MemoOpen, 0) + s + Repeat(")", 0) == s;
      case Err(e) =>
    }
  }

  /** One more memo layer adds one opening label in front and one parenthesis behind. */
  lemma WrapOnce(s: string, k: nat)
    requires k > 0
    ensures MemoOpen + (Repeat(MemoOpen, k - 1) + s + Repeat(")", k - 1)) + ")" == Repeat(MemoOpen, k) + s + Repeat(")", k)
  {
    RepeatSuffix(")", k);
    assert Repeat(MemoOpen, k) == MemoOpen + Repeat(MemoOpen, k - 1);
  }

  lemma {:induction false} RepeatSuffix(s: string, k: nat)
    requires k > 0
    ensures Repeat(s, k) == Repeat(s, k - 1) + s
    decreases k
  {
    if k > 1 {
      RepeatSuffix(s, k - 1);
    }
  }
}

=== FILE: normalizer.dfy ===
/**
 The non-executing normaliser: walks children of any shape, passing
 primitives through, keeping array nesting, replacing every element's type by
 its label, synthesizing an element for each portal and a placeholder string
 for each bare function. It has no access to component code.
 */
module Normalizer {
  import opened Values
  import opened Guards
  import opened Names

  /** `[].concat(v)`: the items of an array, or a one-item list otherwise. */
  function Concat(v: Value): seq<Value> {
    if v.Arr? then v.items else [v]
  }

  /** The element a nested portal is turned into. */
  function PortalElement(children: seq<Value>): Node {
    Element(TString(PortalLabel), Null, Null, Props(Arr(children), NoFields), NoFields)
  }

  /** resolveChildren: `undefined` gives the empty list; anything else a list. */
  function ResolveChildren(v: Value): (r: Result<seq<Value>>)
    decreases v, 2
    ensures v == Undefined ==> r == Ok([])
    ensures r.Ok? && v.Arr? ==> |r.value| == |v.items|
    ensures r.Ok? && !v.Arr? && v != Undefined ==> |r.value| == 1
    ensures r.Err? ==> !r.error.UserThrew?
  {
    if v == Undefined then Ok([])
    else
      var w :- ResolveNestedChildren(v);
      Ok(Concat(w))
  }

  /** resolveNestedChildren: falsy and primitive values unchanged, arrays mapped item by item. */
  function ResolveNestedChildren(v: Value): (r: Result<Value>)
    decreases v, 1
    ensures Falsy(v) || IsPrimitive(v) ==> r == Ok(v)
    ensures r.Ok? ==> (r.value.Arr? <==> v.Arr?)
    ensures r.Ok? && v.Arr? ==> |r.value.items| == |v.items|
    ensures r.Err? ==> !r.error.UserThrew?
  {
    if Falsy(v) || IsPrimitive(v) then Ok(v)
    else if !IsArrayOfChildren(v) then ResolveChild(v)
    else
      var items :- ResolveItems(v.items);
      Ok(Arr(items))
  }

  /** The `map` over an array's items: nested arrays recurse, anything else goes to resolveChild. */
  function ResolveItems(items: seq<Value>): (r: Result<seq<Value>>)
    decreases items, 0
    ensures r.Ok? ==> |r.value| == |items|
    ensures r.Err? ==> !r.error.UserThrew?
  {
    if |items| == 0 then Ok([])
    else
      var first :- if IsArrayOfChildren(items[0]) then ResolveNestedChildren(items[0]) else ResolveChild(items[0]);
      var rest :- ResolveItems(items[1..]);
      Ok([first] + rest)
  }

  /** resolveChild: one non-array value. */
  function ResolveChild(v: Value): (r: Result<Value>)
    decreases v, 0
    ensures Falsy(v) ==> r == Ok(v)
    ensures r.Ok? ==> !r.value.Arr?
    ensures r.Err? ==> !r.error.UserThrew?
  {
    if Falsy(v) then Ok(v)
    else match v
      case Obj(n) =>
        if IsPortal(n) then
          match ResolveChildName(n)
          case Err(e) => Err(e)
          case Ok(_) =>
            var cs :- ResolveChildren(n.children);
            Ok(Obj(PortalElement(cs)))
        else
          var name :- ResolveChildName(n);
          var cs :- ResolveChildren(n.props.children);
          Ok(Obj(n.(elementType := TString(name), props := n.props.(children := Arr(cs)))))
      case Arr(_) => Err(InvalidNode(v))
      case Fn(f) => Ok(Str("[Function: " + ResolveFunctionName(f) + "]"))
      case _ => Ok(v)
  }

  /** Output shape mirrors input shape: arrays stay arrays of the same length, item by item; falsy and primitive values are kept. */
  predicate SameShape(v: Value, w: Value)
    decreases v
  {
    match v
    case Arr(a) => w.Arr? && |a| == |w.items| && forall i :: 0 <= i < |a| ==> SameShape(a[i], w.items[i])
    case _ => !w.Arr? && (Falsy(v) || IsPrimitive(v) ==> w == v)
  }

  /** Resolved output: no live function, no portal, no unrecognised object; every element string-typed with a list of resolved children. */
  predicate ResolvedValue(v: Value)
    decreases v
  {
    match v
    case Arr(a) => forall i :: 0 <= i < |a| ==> ResolvedValue(a[i])
    case Obj(n) =>
      && n.Element?
      && n.elementType.TString?
      && n.props.children.Arr?
      && forall i :: 0 <= i < |n.props.children.items| ==> ResolvedValue(n.props.children.items[i])
    case Fn(_) => false
    case _ => true
  }

  predicate AllResolved(vs: seq<Value>) {
    forall i :: 0 <= i < |vs| ==> ResolvedValue(vs[i])
  }

  /** Values the normaliser accepts: every object reached is a nameable element or a portal. */
  predicate Normalizable(v: Value)
    decreases v
  {
    match v
    case Arr(a) => forall i :: 0 <= i < |a| ==> Normalizable(a[i])
    case Obj(n) =>
      (match n
       case Element(_, _, _, props, _) => Nameable(n) && Normalizable(props.children)
       case Portal(children, _) => Normalizable(children)
       case ErrorObject(_, _) => false
       case Plain(_) => false)
    case _ => true
  }

  /** Off arrays, resolveNestedChildren and resolveChild agree, so the map treats every item alike. */
  lemma NestedIsChildOffArrays(v: Value)
    requires !v.Arr?
    ensures ResolveNestedChildren(v) == ResolveChild(v)
  {
  }

  /** The normaliser fails exactly when it reaches an unrecognised object; when it succeeds the output keeps the input's shape and is fully resolved. */
  lemma {:induction false} NestedFacts(v: Value)
    decreases v, 1
    ensures ResolveNestedChildren(v).Ok? <==> Normalizable(v)
    ensures ResolveNestedChildren(v).Ok? ==>
      SameShape(v, ResolveNestedChildren(v).value) && ResolvedValue(ResolveNestedChildren(v).value)
  {
    if Falsy(v) || IsPrimitive(v) {
    } else if !v.Arr? {
      ChildFacts(v);
    } else {
      ItemsFacts(v.items);
    }
  }

  /** The map over an array succeeds iff every item does, and then yields each item's resolution in place. */
  lemma {:induction false} ItemsFacts(items: seq<Value>)
    decreases items, 0
    ensures ResolveItems(items).Ok? <==> forall i :: 0 <= i < |items| ==> Normalizable(items[i])
    ensures ResolveItems(items).Ok? ==>
      forall i :: 0 <= i < |items| ==> ResolveNestedChildren(items[i]) == Ok(ResolveItems(items).value[i])
    ensures ResolveItems(items).Ok? ==>
      forall i :: 0 <= i < |items| ==>
        SameShape(items[i], ResolveItems(items).value[i]) && ResolvedValue(ResolveItems(items).value[i])
  {
    if |items| > 0 {
      var x := items[0];
      NestedFacts(x);
      if !x.Arr? {
        NestedIsChildOffArrays(x);
      }
      ItemsFacts(items[1..]);
      var r := ResolveItems(items);
      if r.Ok? {
        forall i | 0 <= i < |items|
          ensures ResolveNestedChildren(items[i]) == Ok(r.value[i])
          ensures SameShape(items[i], r.value[i]) && ResolvedValue(r.value[i])
        {
          if i > 0 {
            assert items[i] == items[1..][i - 1];
            assert r.value[i] == ResolveItems(items[1..]).value[i - 1];
          }
        }
      }
      if forall i :: 0 <= i < |items| ==> Normalizable(items[i]) {
        assert forall i :: 0 <= i < |items| - 1 ==> Normalizable(items[1..][i]) by {
          forall i | 0 <= i < |items| - 1 ensures Normalizable(items[1..][i]) {
            assert items[1..][i] == items[i + 1];
          }
        }
      } else if ResolveNestedChildren(x).Ok? {
        var j :| 0 <= j < |items| && !Normalizable(items[j]);
        assert items[j] == items[1..][j - 1];
      }
    }
  }

  /** resolveChild succeeds exactly on normalizable values, and its output is resolved. */
  lemma {:induction false} ChildFacts(v: Value)
    decreases v, 0
    requires !v.Arr?
    ensures ResolveChild(v).Ok? <==> Normalizable(v)
    ensures ResolveChild(v).Ok? ==> ResolvedValue(ResolveChild(v).value)
  {
    match v
    case Obj(n) =>
      NameDefinedIff(n);
      match n {
        case Element(_, _, _, props, _) =>
          ChildrenFacts(props.children);
        case Portal(children, _) =>
          ChildrenFacts(children);
        case ErrorObject(_, _) =>
        case Plain(_) =>
      }
    case _ =>
  }

  /** resolveChildren succeeds exactly on normalizable values and yields resolved items. */
  lemma {:induction false} ChildrenFacts(v: Value)
    decreases v, 2
    ensures ResolveChildren(v).Ok? <==> Normalizable(v)
    ensures ResolveChildren(v).Ok? ==> AllResolved(ResolveChildren(v).value)
  {
    if v != Undefined {
      NestedFacts(v);
    }
  }

  /** resolveChildren maps an array element-wise, and wraps any other non-undefined value in a one-item list. */
  lemma ChildrenElementWise(v: Value)
    requires v != Undefined && ResolveChildren(v).Ok?
    ensures v.Arr? ==>
      forall i :: 0 <= i < |v.items| ==> ResolveNestedChildren(v.items[i]) == Ok(ResolveChildren(v).value[i])
    ensures !v.Arr? ==> ResolveChildren(v).value == [ResolveNestedChildren(v).value]
  {
    if v.Arr? {
      ItemsFacts(v.items);
    }
  }

  /** Falsy and primitive items of a children array come out unchanged, at the same index. */
  lemma FalsyChildrenKept(v: Value)
    requires v.Arr? && ResolveChildren(v).Ok?
    ensures forall i :: 0 <= i < |v.items| && (Falsy(v.items[i]) || IsPrimitive(v.items[i])) ==>
      ResolveChildren(v).value[i] == v.items[i]
  {
    ChildrenElementWise(v);
  }

  /** A nested portal becomes a `ReactDOM.Portal` element with null key and ref, cleared bookkeeping and normalised children. */
  lemma PortalSynthesis(children: Value, extra: Payload)
    ensures var r := ResolveChild(Obj(Portal(children, extra)));
      match ResolveChildren(children)
      case Ok(cs) =>
        r == Ok(Obj(Element(TString("ReactDOM.Portal"), Null, Null, Props(Arr(cs), NoFields), NoFields)))
      case Err(e) => r == Err(e)
  {
  }

  /** A nested element keeps its key, ref, bookkeeping and other props; only its type becomes its label and its children are normalised. */
  lemma ElementCopy(n: Node)
    requires n.Element? && ResolveChild(Obj(n)).Ok?
    ensures var w := ResolveChild(Obj(n)).value;
      && w.Obj? && w.node.Element?
      && w.node.key == n.key
      && w.node.ref == n.ref
      && w.node.extra == n.extra
      && w.node.props.others == n.props.others
      && ResolveChildName(n) == Ok(w.node.elementType.tag)
      && w.node.props.children.Arr?
      && ResolveChildren(n.props.children) == Ok(w.node.props.children.items)
  {
  }

  /** A bare function child becomes the placeholder string `[Function: name]`. */
  lemma FunctionPlaceholder(f: Callable)
    ensures ResolveNestedChildren(Fn(f)) == Ok(Str("[Function: " + ResolveFunctionName(f) + "]"))
  {
  }

  /** The array map is exactly the item-by-item resolution: it yields `outs` iff each item resolves to the matching entry. */
  lemma ItemsPointwiseIff(items: seq<Value>, outs: seq<Value>)
    ensures ResolveItems(items) == Ok(outs) <==>
      |outs| == |items| && forall i :: 0 <= i < |items| ==> ResolveNestedChildren(items[i]) == Ok(outs[i])
  {
    ItemsFacts(items);
    if |outs| == |items| && forall i :: 0 <= i < |items| ==> ResolveNestedChildren(items[i]) == Ok(outs[i]) {
      forall i | 0 <= i < |items| ensures Normalizable(items[i]) {
        NestedFacts(items[i]);
      }
      assert ResolveItems(items).value == outs;
    }
  }
}

=== FILE: renderer.dfy ===
/**
 The root resolver: the one place where component code runs. A Host root has
 its children normalised; a Function, Class or ForwardRef root is executed
 once and its output normalised, a single item being returned bare; Memo is
 unwrapped; Fragment, Provider and Consumer are relabelled and handled as Host;
 a Portal root is normalised like a nested portal.

 Component code is outside the model: `run` answers each invocation with the
 rendered output or with the exception it threw.
 */
module Renderer {
  import opened Values
  import opened Guards
  import opened Names
  import opened Normalizer

  /** The three ways the root resolver calls into component code. */
  datatype Invocation =
    | CallFunction(component: Callable, props: Props)
    | ConstructClass(component: Callable, props: Props)
    | CallForwardRef(render: Callable, props: Props, ref: Value)

  datatype RenderOutcome = Rendered(output: Value) | Threw(token: nat)

  /** Normalises a root component's output; a one-item result is returned bare. */
  function ResolveRendered(o: RenderOutcome): Result<Value> {
    match o
    case Threw(t) => Err(UserThrew(t))
    case Rendered(out) =>
      var cs :- ResolveChildren(Arr(Concat(out)));
      if |cs| == 1 then Ok(cs[0]) else Ok(Arr(cs))
  }

  /** internalToJSON: the guards in the source's order. */
  function InternalToJson(n: Node, run: Invocation -> RenderOutcome): Result<Value>
    decreases NodeDepth(n)
  {
    if IsHTML(n) then
      var cs :- ResolveChildren(n.props.children);
      Ok(Obj(n.(props := n.props.(children := Arr(cs)))))
    else if IsFunction(n) then ResolveRendered(run(CallFunction(n.elementType.fn, n.props)))
    else if IsClass(n) then ResolveRendered(run(ConstructClass(n.elementType.fn, n.props)))
    else if ProbeThrows(n) then Err(NullTypeProbe(n))
    else if IsMemo(n) then InternalToJson(n.(elementType := n.elementType.inner), run)
    else if IsFragment(n) || IsProvider(n) || IsConsumer(n) then
      match ResolveChildName(n)
      case Ok(tag) => InternalToJson(n.(elementType := TString(tag)), run)
      case Err(e) => Err(e)
    else if IsForwardRef(n) then
      ResolveRendered(run(CallForwardRef(n.elementType.render, n.props, n.ref)))
    else if IsPortal(n) then ResolveChild(Obj(n))
    else Err(InvalidNode(Obj(n)))
  }

  /** The renderer holds its root; every call of toJSON resolves it afresh. */
  datatype ShallowRenderer = ShallowRenderer(element: Node) {
    function ToJson(run: Invocation -> RenderOutcome): Result<Value> {
      InternalToJson(element, run)
    }
  }

  /**
   The one invocation a root leads to, read off the reference classification
   once memo layers are removed: None for Host, Fragment, Provider, Consumer,
   Portal and unrecognised roots.
   */
  function RootInvocation(n: Node): Option<Invocation>
    decreases NodeDepth(n)
  {
    match Classify(n)
    case Some(KFunction) => Some(CallFunction(n.elementType.fn, n.props))
    case Some(KClass) => Some(ConstructClass(n.elementType.fn, n.props))
    case Some(KForwardRef) => Some(CallForwardRef(n.elementType.render, n.props, n.ref))
    case Some(KMemo) => RootInvocation(n.(elementType := n.elementType.inner))
    case _ => None
  }

  /** A root with an invocation resolves to the normalised outcome of exactly that invocation. */
  lemma {:induction false} RootRunsInvocation(n: Node, run: Invocation -> RenderOutcome)
    requires RootInvocation(n).Some?
    ensures InternalToJson(n, run) == ResolveRendered(run(RootInvocation(n).value))
    decreases NodeDepth(n)
  {
    ClassifyMatchesGuards(n, Classify(n).value);
    if IsMemo(n) {
      RootRunsInvocation(n.(elementType := n.elementType.inner), run);
    }
  }

  /** A root without an invocation resolves without consulting component code, and never reports a user exception. */
  lemma {:induction false} NoInvocationNoExecution(n: Node, run1: Invocation -> RenderOutcome, run2: Invocation -> RenderOutcome)
    requires RootInvocation(n).None?
    ensures InternalToJson(n, run1) == InternalToJson(n, run2)
    ensures InternalToJson(n, run1).Err? ==> !InternalToJson(n, run1).error.UserThrew?
    decreases NodeDepth(n)
  {
    if Classify(n).Some? {
      ClassifyMatchesGuards(n, Classify(n).value);
    }
    if IsMemo(n) {
      NoInvocationNoExecution(n.(elementType := n.elementType.inner), run1, run2);
    } else if IsFragment(n) || IsProvider(n) || IsConsumer(n) {
      var tag := ResolveChildName(n).value;
      NoInvocationNoExecution(n.(elementType := TString(tag)), run1, run2);
    }
  }

  /**
   Component code runs at most once: two component environments that agree on
   the root's single invocation (or any two, when there is none) give the same
   result.
   */
  lemma ExecutesAtMostOnce(n: Node, run1: Invocation -> RenderOutcome, run2: Invocation -> RenderOutcome)
    requires RootInvocation(n).None? || run1(RootInvocation(n).value) == run2(RootInvocation(n).value)
    ensures InternalToJson(n, run1) == InternalToJson(n, run2)
  {
    if RootInvocation(n).Some? {
      RootRunsInvocation(n, run1);
      RootRunsInvocation(n, run2);
    } else {
      NoInvocationNoExecution(n, run1, run2);
    }
  }

  /** Exceptions from component code propagate unchanged, and the engine raises none of its own of that kind. */
  lemma UserErrorsPropagate(n: Node, run: Invocation -> RenderOutcome, t: nat)
    ensures InternalToJson(n, run) == Err(UserThrew(t)) <==>
      RootInvocation(n).Some? && run(RootInvocation(n).value) == Threw(t)
  {
    if RootInvocation(n).Some? {
      RootRunsInvocation(n, run);
    } else {
      NoInvocationNoExecution(n, run, run);
    }
  }

  /** A component returning one non-array value yields that value's resolution bare. */
  lemma CollapseSingleValue(out: Value)
    requires !out.Arr?
    ensures ResolveRendered(Rendered(out)) == ResolveNestedChildren(out)
  {
    SingleItemMap(out);
  }

  /** A component returning a one-item array yields that item's resolution bare. */
  lemma CollapseSingleItem(out: Value)
    requires out.Arr? && |out.items| == 1
    ensures ResolveRendered(Rendered(out)) == ResolveNestedChildren(out.items[0])
  {
    var x := out.items[0];
    assert out.items == [x];
    SingleItemMap(x);
  }

  /** The map over a one-item list resolves that item; the rendered output is then returned bare. */
  lemma SingleItemMap(x: Value)
    ensures ResolveRendered(Rendered(Arr([x]))) == ResolveNestedChildren(x)
    ensures !x.Arr? ==> ResolveRendered(Rendered(x)) == ResolveNestedChildren(x)
  {
    if !x.Arr? {
      NestedIsChildOffArrays(x);
    }
    assert [x][1..] == [];
    assert Concat(Arr([x])) == [x];
    assert !x.Arr? ==> Concat(x) == [x];
    match ResolveNestedChildren(x)
    case Ok(w) =>
      assert [w] + [] == [w];
      assert ResolveItems([x]) == Ok([w]);
      assert ResolveNestedChildren(Arr([x])) == Ok(Arr([w]));
      assert ResolveChildren(Arr([x])) == Ok([w]);
    case Err(e) =>
      assert ResolveItems([x]) == Err(e);
      assert ResolveNestedChildren(Arr([x])) == Err(e);
      assert ResolveChildren(Arr([x])) == Err(e);
  }

  /** A component returning an array of any other length yields a list of that length, item by item. */
  lemma CollapseList(out: Value)
    requires out.Arr? && |out.items| != 1 && ResolveRendered(Rendered(out)).Ok?
    ensures var w := ResolveRendered(Rendered(out)).value;
      w.Arr? && |w.items| == |out.items| &&
      forall i :: 0 <= i < |out.items| ==> ResolveNestedChildren(out.items[i]) == Ok(w.items[i])
  {
    assert Concat(out) == out.items;
    ChildrenElementWise(Arr(out.items));
  }

  /** A Function, Class or ForwardRef root (after memo) returns the bare child for one output item, a list otherwise. */
  lemma SingletonCollapse(n: Node, run: Invocation -> RenderOutcome)
    requires RootInvocation(n).Some? && run(RootInvocation(n).value).Rendered?
    ensures var out := run(RootInvocation(n).value).output;
      && (!out.Arr? ==> InternalToJson(n, run) == ResolveNestedChildren(out))
      && (out.Arr? && |out.items| == 1 ==> InternalToJson(n, run) == ResolveNestedChildren(out.items[0]))
      && (out.Arr? && |out.items| != 1 && InternalToJson(n, run).Ok? ==>
            var w := InternalToJson(n, run).value;
            w.Arr? && |w.items| == |out.items| &&
            forall i :: 0 <= i < |out.items| ==> ResolveNestedChildren(out.items[i]) == Ok(w.items[i]))
  {
    RootRunsInvocation(n, run);
    var out := run(RootInvocation(n).value).output;
    if !out.Arr? {
      CollapseSingleValue(out);
    } else if |out.items| == 1 {
      CollapseSingleItem(out);
    } else if InternalToJson(n, run).Ok? {
      CollapseList(out);
    }
  }

  /** A Host root comes back with only `props.children` replaced by its normalisation. */
  lemma HostRoot(n: Node, run: Invocation -> RenderOutcome)
    requires IsHTML(n)
    ensures match ResolveChildren(n.props.children)
      case Ok(cs) => InternalToJson(n, run) == Ok(Obj(Element(n.elementType, n.key, n.ref, Props(Arr(cs), n.props.others), n.extra)))
      case Err(e) => InternalToJson(n, run) == Err(e)
  {
  }

  /** A Fragment, Provider or Consumer root is a Host root labelled with its fixed name; nothing is executed. */
  lemma WrapperRoot(n: Node, run: Invocation -> RenderOutcome)
    requires IsFragment(n) || IsProvider(n) || IsConsumer(n)
    ensures RootInvocation(n).None?
    ensures var tag := if IsFragment(n) then FragmentLabel else if IsProvider(n) then ProviderLabel else ConsumerLabel;
      match ResolveChildren(n.props.children)
      case Ok(cs) => InternalToJson(n, run) == Ok(Obj(Element(TString(tag), n.key, n.ref, Props(Arr(cs), n.props.others), n.extra)))
      case Err(e) => InternalToJson(n, run) == Err(e)
  {
    if IsFragment(n) {
      ClassifyMatchesGuards(n, KFragment);
    } else if IsProvider(n) {
      ClassifyMatchesGuards(n, KProvider);
    } else {
      ClassifyMatchesGuards(n, KConsumer);
    }
  }

  /** Any number of memo layers around a root change nothing: memo re-dispatches on its inner type. */
  lemma {:induction false} MemoTransparent(n: Node, k: nat, dn: string, render: Callable, run: Invocation -> RenderOutcome)
    requires n.Element?
    ensures InternalToJson(n.(elementType := WrapMemo(n.elementType, k, dn, render)), run) == InternalToJson(n, run)
    decreases k
  {
    if k > 0 {
      MemoTransparent(n, k - 1, dn, render, run);
      var m := n.(elementType := WrapMemo(n.elementType, k, dn, render));
      assert IsMemo(m);
      assert m.(elementType := m.elementType.inner) == n.(elementType := WrapMemo(n.elementType, k - 1, dn, render));
    } else {
      assert n.(elementType := WrapMemo(n.elementType, 0, dn, render)) == n;
    }
  }

  /** An unrecognised root, `{}` among them, raises the invalid-node error carrying it. */
  lemma InvalidRoot(n: Node, run: Invocation -> RenderOutcome)
    requires Classify(n).None? && !ProbeThrows(n)
    ensures InternalToJson(n, run) == Err(InvalidNode(Obj(n)))
  {
    forall k: Kind ensures !Guard(k, n) {
      ClassifyMatchesGuards(n, k);
    }
  }

  /** Everything the engine returns is resolved: string-typed elements, no live functions, no portals. */
  lemma {:induction false} OutputResolved(n: Node, run: Invocation -> RenderOutcome)
    requires InternalToJson(n, run).Ok?
    ensures ResolvedValue(InternalToJson(n, run).value)
    decreases NodeDepth(n)
  {
    if IsHTML(n) {
      ChildrenFacts(n.props.children);
    } else if RootInvocation(n).Some? {
      RootRunsInvocation(n, run);
      var out := run(RootInvocation(n).value).output;
      ChildrenFacts(Arr(Concat(out)));
    } else if IsMemo(n) {
      OutputResolved(n.(elementType := n.elementType.inner), run);
    } else if IsFragment(n) || IsProvider(n) || IsConsumer(n) {
      OutputResolved(n.(elementType := TString(ResolveChildName(n).value)), run);
    } else if IsPortal(n) {
      ChildFacts(Obj(n));
    }
  }
}

=== FILE: scenarios.dfy ===
/**
 Concrete resolutions, most of them taken from the repository's test suite,
 stated as lemmas over the model.
 */
module Scenarios {
  import opened Values
  import opened Guards
  import opened Names
  import opened Normalizer
  import opened Renderer
  import opened Diagnostics

  function HostElement(tag: string, key: Value, children: Value): Node {
    Element(TString(tag), key, Null, Props(children, NoFields), NoFields)
  }

  /** A component that renders `out` whatever it is called with. */
  function Always(out: Value): Invocation -> RenderOutcome {
    _ => Rendered(out)
  }

  /** `<div><p>I am a child!</p>I am text!</div>`: the single text child of `p` becomes a one-item list. */
  lemma SimpleHtml(run: Invocation -> RenderOutcome)
    ensures var p := HostElement("p", Null, Str("I am a child!"));
      var div := HostElement("div", Null, Arr([Obj(p), Str("I am text!")]));
      InternalToJson(div, run) ==
        Ok(Obj(HostElement("div", Null, Arr([
          Obj(HostElement("p", Null, Arr([Str("I am a child!")]))),
          Str("I am text!")]))))
  {
    var p := HostElement("p", Null, Str("I am a child!"));
    var t := Str("I am text!");
    var pOut := Obj(HostElement("p", Null, Arr([Str("I am a child!")])));
    assert ResolveChildren(Str("I am a child!")) == Ok([Str("I am a child!")]);
    assert ResolveNestedChildren(Obj(p)) == Ok(pOut);
    assert ResolveNestedChildren(t) == Ok(t);
    ItemsPointwiseIff([Obj(p), t], [pOut, t]);
    var div := HostElement("div", Null, Arr([Obj(p), t]));
    assert ResolveNestedChildren(Arr([Obj(p), t])) == Ok(Arr([pOut, t]));
    assert ResolveChildren(Arr([Obj(p), t])) == Ok([pOut, t]);
    HostRoot(div, run);
  }

  /** A function component rendering `<div><p>{null}</p><p>{false}</p></div>`: falsy children are kept. */
  lemma FalsyChildren(f: Callable)
    requires !f.protoHasRender && !f.classEvidence
    ensures var div := HostElement("div", Null, Arr([
        Obj(HostElement("p", Null, Null)),
        Obj(HostElement("p", Null, Bool(false)))]));
      InternalToJson(Element(TFunction(f), Null, Null, Props(Undefined, NoFields), NoFields), Always(Obj(div))) ==
        Ok(Obj(HostElement("div", Null, Arr([
          Obj(HostElement("p", Null, Arr([Null]))),
          Obj(HostElement("p", Null, Arr([Bool(false)])))]))))
  {
    var p1 := HostElement("p", Null, Null);
    var p2 := HostElement("p", Null, Bool(false));
    var o1 := Obj(HostElement("p", Null, Arr([Null])));
    var o2 := Obj(HostElement("p", Null, Arr([Bool(false)])));
    var div := HostElement("div", Null, Arr([Obj(p1), Obj(p2)]));
    var root := Element(TFunction(f), Null, Null, Props(Undefined, NoFields), NoFields);
    assert ResolveNestedChildren(Obj(p1)) == Ok(o1);
    assert ResolveNestedChildren(Obj(p2)) == Ok(o2);
    ItemsPointwiseIff([Obj(p1), Obj(p2)], [o1, o2]);
    assert ResolveNestedChildren(Arr([Obj(p1), Obj(p2)])) == Ok(Arr([o1, o2]));
    assert ResolveChildren(Arr([Obj(p1), Obj(p2)])) == Ok([o1, o2]);
    var divOut := Obj(HostElement("div", Null, Arr([o1, o2])));
    assert ResolveNestedChildren(Obj(div)) == Ok(divOut);
    ItemsPointwiseIff([Obj(div)], [divOut]);
    assert ResolveNestedChildren(Arr([Obj(div)])) == Ok(Arr([divOut]));
    assert ResolveChildren(Arr([Obj(div)])) == Ok([divOut]);
    assert RootInvocation(root) == Some(CallFunction(f, root.props));
    RootRunsInvocation(root, Always(Obj(div)));
  }

  /** `<p key={k}>{k}</p>` as the mapped callback builds it, and its resolution. */
  function MappedItem(k: nat): Node {
    HostElement("p", Str(NatToString(k)), Num(k))
  }

  function MappedItemOut(k: nat): Value {
    Obj(HostElement("p", Str(NatToString(k)), Arr([Num(k)])))
  }

  /** A nested Host element keeps everything but its children, which are normalised. */
  lemma HostChild(n: Node)
    requires IsHTML(n)
    ensures match ResolveChildren(n.props.children)
      case Ok(cs) => ResolveNestedChildren(Obj(n)) == Ok(Obj(n.(props := n.props.(children := Arr(cs)))))
      case Err(e) => ResolveNestedChildren(Obj(n)) == Err(e)
  {
  }

  lemma MappedItemResolves(k: nat)
    ensures ResolveNestedChildren(Obj(MappedItem(k))) == Ok(MappedItemOut(k))
  {
    assert ResolveChildren(Num(k)) == Ok([Num(k)]);
    HostChild(MappedItem(k));
  }

  /** `[1, 2, 3].map(...)`: each `p` gets its number as a one-item list. */
  lemma MappedList()
    ensures ResolveNestedChildren(Arr([Obj(MappedItem(1)), Obj(MappedItem(2)), Obj(MappedItem(3))])) ==
      Ok(Arr([MappedItemOut(1), MappedItemOut(2), MappedItemOut(3)]))
  {
    MappedItemResolves(1);
    MappedItemResolves(2);
    MappedItemResolves(3);
    ItemsPointwiseIff([Obj(MappedItem(1)), Obj(MappedItem(2)), Obj(MappedItem(3))],
      [MappedItemOut(1), MappedItemOut(2), MappedItemOut(3)]);
  }

  /** `[[<div key={1} />]]`: the double nesting is kept and the childless `div` gets `[]`. */
  lemma MappedDeep()
    ensures ResolveNestedChildren(Arr([Arr([Obj(HostElement("div", Str("1"), Undefined))])])) ==
      Ok(Arr([Arr([Obj(HostElement("div", Str("1"), Arr([])))])]))
  {
    var d := Obj(HostElement("div", Str("1"), Undefined));
    var od := Obj(HostElement("div", Str("1"), Arr([])));
    assert ResolveNestedChildren(d) == Ok(od);
    ItemsPointwiseIff([d], [od]);
    assert ResolveNestedChildren(Arr([d])) == Ok(Arr([od]));
    ItemsPointwiseIff([Arr([d])], [Arr([od])]);
  }

  /** The `div` the mapped-children component renders, and its resolution. */
  function MappedDiv(): Node {
    HostElement("div", Null, Arr([
      Arr([Obj(MappedItem(1)), Obj(MappedItem(2)), Obj(MappedItem(3))]),
      Arr([Arr([Obj(HostElement("div", Str("1"), Undefined))])])]))
  }

  function MappedDivOut(): Value {
    Obj(HostElement("div", Null, Arr([
      Arr([MappedItemOut(1), MappedItemOut(2), MappedItemOut(3)]),
      Arr([Arr([Obj(HostElement("div", Str("1"), Arr([])))])])])))
  }

  /** The rendered `div` keeps both groups of children, each with its own nesting. */
  lemma MappedDivResolves()
    ensures ResolveNestedChildren(Obj(MappedDiv())) == Ok(MappedDivOut())
  {
    var inner := Arr([Obj(MappedItem(1)), Obj(MappedItem(2)), Obj(MappedItem(3))]);
    var deep := Arr([Arr([Obj(HostElement("div", Str("1"), Undefined))])]);
    var innerOut := Arr([MappedItemOut(1), MappedItemOut(2), MappedItemOut(3)]);
    var deepOut := Arr([Arr([Obj(HostElement("div", Str("1"), Arr([])))])]);
    MappedList();
    MappedDeep();
    ItemsPointwiseIff([inner, deep], [innerOut, deepOut]);
    assert ResolveNestedChildren(Arr([inner, deep])) == Ok(Arr([innerOut, deepOut]));
    assert ResolveChildren(Arr([inner, deep])) == Ok([innerOut, deepOut]);
    HostChild(MappedDiv());
  }

  /**
   A function component rendering `<div>{[1, 2, 3].map(k => <p key={k}>{k}</p>)}{[[<div key={1} />]]}</div>`:
   the `div` is returned bare, and the mapped and doubly nested children keep their nesting, keys and numbers.
   */
  lemma MappedChildren(f: Callable)
    requires !f.protoHasRender && !f.classEvidence
    ensures InternalToJson(Element(TFunction(f), Null, Null, Props(Undefined, NoFields), NoFields), Always(Obj(MappedDiv()))) ==
      Ok(MappedDivOut())
  {
    var root := Element(TFunction(f), Null, Null, Props(Undefined, NoFields), NoFields);
    assert RootInvocation(root) == Some(CallFunction(f, root.props));
    RootRunsInvocation(root, Always(Obj(MappedDiv())));
    CollapseSingleValue(Obj(MappedDiv()));
    MappedDivResolves();
  }

  /** A portal root whose children is one Host element. */
  lemma PortalRoot(run: Invocation -> RenderOutcome)
    ensures var child := HostElement("span", Null, Undefined);
      InternalToJson(Portal(Obj(child), Fields(7)), run) ==
        Ok(Obj(Element(TString("ReactDOM.Portal"), Null, Null,
          Props(Arr([Obj(HostElement("span", Null, Arr([])))]), NoFields), NoFields)))
  {
    var child := HostElement("span", Null, Undefined);
    var out := Obj(HostElement("span", Null, Arr([])));
    assert ResolveNestedChildren(Obj(child)) == Ok(out);
    assert ResolveChildren(Obj(child)) == Ok([out]);
  }

  /** Resolving `{}` raises the invalid-node error, whose message carries the fixed prefix. */
  lemma EmptyObjectIsInvalid(run: Invocation -> RenderOutcome, json: Stringify)
    ensures InternalToJson(Plain(NoFields), run) == Err(InvalidNode(Obj(Plain(NoFields))))
    ensures ResolveChildName(Plain(NoFields)) == Err(InvalidNode(Obj(Plain(NoFields))))
    ensures ErrorMessage(InvalidNode(Obj(Plain(NoFields))), json)[..|InvalidNodePrefix|] == InvalidNodePrefix
  {
  }

  /** A string is rendered between double quotes; `null` and `undefined` literally. */
  lemma LiteralRenderings(json: Stringify)
    ensures InvalidNodeToString(Str("string"), json) == "\"string\""
    ensures InvalidNodeToString(Null, json) == "null"
    ensures InvalidNodeToString(Undefined, json) == "undefined"
  {
  }

  /** An `Error` is rendered as its name and its quoted message. */
  lemma ErrorRendering(json: Stringify)
    ensures InvalidNodeToString(Obj(ErrorObject("Error", "error")), json) == "Error: \"error\""
  {
  }

  /** `<div>{new Error('x')}</div>`: the error instance is an invalid child, and the message names it without the serializer. */
  lemma ErrorChild(run: Invocation -> RenderOutcome, json: Stringify)
    ensures var e := Obj(ErrorObject("Error", "x"));
      && InternalToJson(HostElement("div", Null, e), run) == Err(InvalidNode(e))
      && ErrorMessage(InvalidNode(e), json) == InvalidNodePrefix + "Error: \"x\""
  {
    var e := Obj(ErrorObject("Error", "x"));
    assert ResolveChildName(e.node) == Err(InvalidNode(e));
    assert ResolveNestedChildren(e) == Err(InvalidNode(e));
    assert InvalidNodeToString(e, json) == "Error: \"x\"";
  }

  /** The number 123 renders as `123`. */
  lemma NumberRendering(json: Stringify)
    ensures InvalidNodeToString(Num(123), json) == "123"
  {
    assert Digit(1) == '1' && Digit(2) == '2' && Digit(3) == '3';
    assert NatToString(1) == "1";
    assert NatToString(12) == NatToString(1) + [Digit(2)] == "12";
    assert NatToString(123) == NatToString(12) + [Digit(3)] == "123";
  }
}

=== FILE: values.dfy ===
/**
 The data model of the shallow renderer: the JavaScript values that flow
 through the resolution engine (children, element types, nodes), the errors it
 raises, and the Result type used to propagate them.

 Symbols that the source compares by identity (`$$typeof` markers, the
 Fragment type) become constructors of `Sym`; the opaque bookkeeping fields
 of an element (`_owner`, `_store`, props other than `children`) are carried
 as a `Payload` that the engine copies without looking inside.
 */
module Values {

  datatype Option<+T> = None | Some(value: T)

  /** The well-known symbols of the UI library, plus any other symbol. */
  datatype Sym =
    | ElementSym
    | PortalSym
    | FragmentSym
    | MemoSym
    | ProviderSym
    | ContextSym
    | ForwardRefSym
    | OtherSym(id: nat)

  /**
   A JavaScript function used as a component type or appearing bare as a child.
   An empty `displayName` or `name` stands for an absent or falsy property.
   `protoHasRender` says whether its prototype has a `render` member;
   `classEvidence` is the outcome of the other two class probes (an
   `instanceof` test against the base component class and a pattern match over
   the function's source text).
   */
  datatype Callable = Callable(
    name: string,
    displayName: string,
    protoHasRender: bool,
    classEvidence: bool)

  /**
   The `type` field of an element. An object type carries its `$$typeof`
   marker (None when it has no such property), its inner `type` (read by memo),
   its `displayName` and its `render` function (read by forwardRef).
   `TOther` is undefined, a number or a boolean.
   */
  datatype TypeValue =
    | TString(tag: string)
    | TFunction(fn: Callable)
    | TObject(marker: Option<Sym>, inner: TypeValue, displayName: string, render: Callable)
    | TSymbol(sym: Sym)
    | TNull
    | TOther

  /**
   Opaque fields copied verbatim. `NoFields` stands for the empty object as a
   whole value (`Plain(NoFields)` is `{}`), for an element's other props when
   it has none, and for the bookkeeping `_owner: null, _store: {}` that a
   freshly created element carries.
   */
  datatype Payload = NoFields | Fields(id: nat)

  /** `children` and the other props, which the engine never inspects. */
  datatype Props = Props(children: Value, others: Payload)

  /** A JavaScript value as it appears in children or in rendered output. */
  datatype Value =
    | Undefined
    | Null
    | Bool(b: bool)
    | Num(n: int)
    | Str(s: string)
    | Arr(items: seq<Value>)
    | Obj(node: Node)
    | Fn(fn: Callable)

  /**
   An object value. `Element` is an object whose `$$typeof` is the element
   symbol, `Portal` one whose `$$typeof` is the portal symbol, `ErrorObject`
   an `Error` instance with its `name` and `message`, and `Plain` any other
   object (`{}` among them). `extra` holds `_owner`, `_store` and any further
   own fields.
   */
  datatype Node =
    | Element(elementType: TypeValue, key: Value, ref: Value, props: Props, extra: Payload)
    | Portal(children: Value, extra: Payload)
    | ErrorObject(name: string, message: string)
    | Plain(fields: Payload)

  /**
   What the engine can raise: the invalid-node error carrying the offending
   value, the TypeError that `'$$typeof' in null` raises when an element's type
   is null, and an exception thrown by user component code.
   */
  datatype Error =
    | InvalidNode(culprit: Value)
    | NullTypeProbe(offender: Node)
    | UserThrew(token: nat)

  datatype Result<+T> = Ok(value: T) | Err(error: Error) {
    predicate IsFailure() {
      Err?
    }

    function PropagateFailure<U>(): Result<U>
      requires Err?
    {
      Err(error)
    }

    function Extract(): T
      requires Ok?
    {
      value
    }
  }

  /** JavaScript falsiness over the modelled values. */
  predicate Falsy(v: Value) {
    v == Undefined || v == Null || v == Bool(false) || v == Num(0) || v == Str("")
  }

  /** `typeof v` is 'string', 'number' or 'boolean'. */
  predicate IsPrimitive(v: Value) {
    v.Str? || v.Num? || v.Bool?
  }

  /** Nesting depth of object-typed wrappers: a memo's inner type is shallower. */
  function TypeDepth(t: TypeValue): nat {
    match t
    case TString(_) => 0
    case TObject(_, inner, _, _) => 1 + TypeDepth(inner)
    case _ => 1
  }

  function NodeDepth(n: Node): nat {
    if n.Element? then TypeDepth(n.elementType) else 0
  }
}
